=== FILE: README.md ===
# crm-lite access policy and deal metrics, in Dafny

crm-lite is a small sales CRM. Sales reps own deals. Each client user belongs to a
company and sees that company's quoted and won deals through a client portal. This
project models two parts of it as pure Dafny functions, and proves what each part promises.

**Access and data scoping.** This part covers:

- the `GET`/`POST` handlers of the deals API
- the file-upload handler
- the query helpers in `lib/data.ts`: `getDeals`, `getDealById`, `getDashboardStats` (which
  the dashboard page calls) and `getClientDeals`
- the page middleware, which routes signed-in users by role

The database is a sequence of `Deal` rows. Prisma's `findMany`/`findFirst` are modelled
by a first-order `where` record (`Query.DealWhere`), a filter and an `updatedAt`-descending
sort. The database does not fix the order of rows with equal `updatedAt`. So the listing
contracts state exactly which rows are returned, with their multiplicities, and that they
are sorted. They do not state one particular order among ties.

The properties proved include:

- a client's listing holds only quoted or won deals of the client's own company, and
  ignores the `stage` query parameter
- a rep's listing holds exactly the rep's own deals in the requested stage
- in `getDealById`, a foreign deal id looks the same as a missing one
- deal creation always stamps the session user as owner, whatever `salesRepId` the body carries
- an upload is stored only for a deal its caller owns, and a rejected request leaves the
  store untouched
- the dashboard's stage counts add up to the listing, and its "recent deals" are the five
  newest
- the middleware never sends a client to a rep page, or a rep to the portal

**Derived metrics.** These are the numbers and badges the deal pages compute:

- the MEDDIC qualification score (`MEDDICForm`) and its colour band
- the forecasting panel's weighted value, presets, close-date hint and colour
  (`ForecastingPanel`)
- the deal card's forecast strip (`DealCard`)
- the quota attainment bar (`QuotaProgress`)
- the activity timeline's due-date annotations and connectors (`ActivityTimeline`)

Day counts use the source's `Math.ceil(diff / 86400000)`. This is stated as the unique `d`
with `(d-1)·M < diff ≤ d·M`. Each rendered label, such as `"3d overdue"` or
`"12 days until close"`, is proved to parse back to the day count it was rendered from.

The deal card and the forecasting panel disagree on a zero probability. For the same deal,
the card's strip shows the full deal value (`probability ? … : dealValue` treats `0` as
absent), while the panel shows a weighted value of `0`.
`DealCard.ZeroProbabilityShowsFullValue` states this. Both behaviours are modelled as
written.

The clock (`Date.now()`, `new Date()`), fresh ids, the start of the year and date-string
parsing are parameters. The upload's disk is a map from relative path to bytes.

Some behaviours of the code worth stating plainly, all modelled as written:

- The deals `POST` checks the role (403) before it checks the body (400).
- A client whose `companyName` is missing is matched against the empty string (`companyName || ""`).
- `dealValue: 0` and `grossProfit: 0` pass validation, because only `undefined` is rejected.
- The upload looks the deal up by id alone. It answers 404 for a missing deal and 403 for
  another rep's deal, so the two cases can be told apart there.

## Model

| member | source | states |
|---|---|---|
| Query.FindMany | src/lib/data.ts:8-14 | The result holds exactly the rows the `where` clause matches, each as often as in the table. It is ordered by `updatedAt`, newest first. |
| Query.FindFirst | src/lib/data.ts:18-22 | Some row is returned exactly when some row matches, and the returned row matches. |
| Query.FilterCounts | src/lib/data.ts:8-14 | Filtering keeps every matching row with its multiplicity and drops every other row. |
| Ordering.SortDesc | src/lib/data.ts:13 | The `orderBy: updatedAt desc` result is sorted newest first and is a permutation of its input. |
| Ordering.PrefixDominates | src/lib/data.ts:48-52 | In a newest-first sequence, the row at every position after a `take: n` prefix is no newer than any row inside it. |
| Data.GetDeals | src/lib/data.ts:7-15 | Returns exactly the rep's own deals, restricted to `stage` when one is given. The result is sorted newest first and keeps multiplicities. |
| Data.GetDealById | src/lib/data.ts:17-29 | Returns a deal exactly when the caller owns a deal with that id. It comes with precisely that deal's files, each as often as the file table holds it, newest upload first. |
| Data.ForeignDealLooksMissing | src/lib/data.ts:17-22 | A deal owned by someone else yields the same `null` as an id that does not exist. |
| Data.YtdClosed | src/lib/data.ts:36-55 | Year-to-date closed is 0 when no own WON deal was updated since the start of the year. It is non-negative when deal values are. |
| Data.YtdClosedAdditive | src/lib/data.ts:55 | The reduce over WON-since-start deals distributes over concatenation of the deal table. |
| Data.YtdClosedOfNewDeal | src/lib/data.ts:36-42 | Adding a deal raises year-to-date closed by its value exactly when it is the rep's WON deal updated this year. Otherwise it leaves it unchanged. |
| Data.GroupByStage | src/lib/data.ts:43-47 | One entry per distinct stage of the rep's deals, each with a positive count equal to the number of the rep's deals in that stage. The counts add up to the number of the rep's deals. |
| Data.StageCountsMatchListing | src/lib/data.ts:43-47 | Each stage count in the dashboard equals the length of the rep's deal listing filtered to that stage. |
| Data.RecentDeals | src/lib/data.ts:48-52 | At most five of the rep's own deals, sorted newest first, each shown no more often than the table holds it. It holds five when the rep has five. No omitted own deal is newer than one shown, and this also holds for extra copies of a row the table holds more than once. So it is the first five of the rep's deals in some newest-first order. |
| Data.GetDashboardStats | src/lib/data.ts:31-58 | The dashboard carries the year-to-date total for the same rep and year start. Its per-stage counts are the rep's deal counts per stage, distinct, positive and summing to the rep's deal count. Its recent deals are the five newest. |
| Data.GetClientDeals | src/lib/data.ts:60-68 | Returns exactly the QUOTED or WON deals of the given company, newest first, with multiplicities. |
| DealsRoute.ListDeals | src/app/api/deals/route.ts:6-39 | 401 exactly when there is no session. For a client, exactly the company's quoted/won deals. For a rep, exactly the rep's deals in the requested stage (every stage when the parameter is empty or absent). Always newest first. |
| DealsRoute.ListKeepsMultiplicity | src/app/api/deals/route.ts:16-37 | The listing returns each visible row as many times as the table holds it. |
| DealsRoute.ClientListIgnoresStage | src/app/api/deals/route.ts:13-28 | A client's listing is the same whatever `stage` parameter is sent. |
| DealsRoute.ClientListIsPortalQuery | src/app/api/deals/route.ts:16-27 | The API's client listing is the portal helper's query for the client's company (or `""`). |
| DealsRoute.RepListIsGetDeals | src/app/api/deals/route.ts:30-39 | The API's rep listing is the dashboard helper's query for the same rep and stage. |
| DealsRoute.CreateDeal | src/app/api/deals/route.ts:49-84 | 401 without a session, then 403 for non-reps, then 400 when the name or company is absent or empty or an amount is absent, and otherwise 201. The table is unchanged unless 201. A created deal is owned by the session user, carries the body's fields and defaults to `COURTING`. |
| DealsRoute.ClientCannotCreate | src/app/api/deals/route.ts:56-61 | No body lets a client create a deal. |
| DealsRoute.ZeroAmountsAccepted | src/app/api/deals/route.ts:66-71 | Zero amounts pass validation; only absent ones fail. |
| DealsRoute.CreatedDealListedForCreator | src/app/api/deals/route.ts:73-84 | After a 201, the creator's listing contains the new deal and no other rep's listing does, whatever `salesRepId` the body carried. |
| DealsRoute.CreatedDealClientVisibility | src/app/api/deals/route.ts:16-27 | A newly created deal shows in a client's listing exactly when its company is the client's and the body gave a QUOTED or WON stage. A default-stage deal stays hidden. |
| UploadRoute.DealById | src/app/api/files/upload/route.ts:35-37 | The lookup by id alone finds a deal exactly when one with that id exists. |
| UploadRoute.StoredPathLayout | src/app/api/files/upload/route.ts:52-66 | The stored path starts with `uploads/<dealId>/` and ends with `-<name>`. The segment between them reads back as the upload timestamp. |
| UploadRoute.Upload | src/app/api/files/upload/route.ts:8-71 | The status is one of 401, 403, 400, 404 and 201. 401 is returned exactly without a session. 403 is returned exactly for a non-rep or for another rep's deal. 400 is returned exactly for a rep without a file or dealId. 404 is returned exactly for an unknown deal. 201 is returned exactly when a rep sends a file for a deal the rep owns. The store is unchanged unless 201. On 201 the bytes are stored under the record's path (the disk location for names without `/` or `..`; see Left out) and one record is added for that deal, with category defaulting to `INTERNAL`. |
| UploadRoute.MissingAndForeignDiffer | src/app/api/files/upload/route.ts:39-45 | A missing deal answers 404 and another rep's deal answers 403. |
| UploadRoute.UploadedFileListed | src/app/api/files/upload/route.ts:62-71 | After a 201, `getDealById` for the uploader lists the new file record, and its path holds the uploaded bytes. |
| Middleware.Route | src/middleware.ts:5-27 | A client is redirected to `/client-portal` exactly on `/`, `/deals` and every `/deals/…` page. A rep is redirected to `/` exactly on `/client-portal…`. Everything else passes. |
| Middleware.Guard | src/middleware.ts:4-34 | Without a token every request is redirected to next-auth's default sign-in route `/api/auth/signin`. With a token the role routing decides. |
| Middleware.DealsNewSubsumed | src/middleware.ts:11-14 | The `/deals/new` test adds nothing beyond the `/deals/` prefix test. |
| Middleware.NoCrossRedirect | src/middleware.ts:10-25 | A client is never redirected to `/` and a rep is never redirected to `/client-portal`. |
| Middleware.ClientPortalPasses | src/middleware.ts:10-27 | A signed-in client reaches every page under `/client-portal`. |
| Days.DaysUntil | src/components/ActivityTimeline.tsx:46-52 | The day count is the ceiling of the millisecond difference over a day: `(d-1)·M < diff ≤ d·M`. |
| Days.DaysUntilUnique | src/components/ActivityTimeline.tsx:46-52 | Only one integer satisfies the ceiling bounds. |
| Days.DaysUntilMonotone | src/components/ActivityTimeline.tsx:46-52 | A later target never gives fewer days. |
| Days.CloseBandOf | src/components/ForecastingPanel.tsx:97-101 | Overdue, within a week, within a month and later partition the day counts at 0, 7 and 30. |
| Forecasting.WeightedValue | src/components/ForecastingPanel.tsx:34 | `w·100 = value·probability`. It lies between 0 and the value for a probability in 0..100, and equals the value at 100. |
| Forecasting.PresetsOnSlider | src/components/ForecastingPanel.tsx:116-129 | Every probability preset is a reachable slider position (0..100 in steps of 5). |
| Forecasting.InitialForm | src/components/ForecastingPanel.tsx:28-32 | A missing close date starts as the empty string. The other fields are copied. |
| Forecasting.SetCloseDate | src/components/ForecastingPanel.tsx:93 | Editing the date changes only the date. |
| Forecasting.ChoosePreset | src/components/ForecastingPanel.tsx:129 | A preset click changes only the probability. |
| Forecasting.ChooseCategory | src/components/ForecastingPanel.tsx:151 | A category click changes only the category. |
| Forecasting.DaysUntilClose | src/components/ForecastingPanel.tsx:52-59 | There is no count exactly when the date field is empty. Otherwise it is the ceiling day count to the parsed date. |
| Forecasting.CloseLabel | src/components/ForecastingPanel.tsx:102-106 | The hint reads `N days overdue`, `Closing today` or `N days until close`, and parses back to the day count it shows. |
| Forecasting.CloseColor | src/components/ForecastingPanel.tsx:97-101 | The hint's colour is the colour of the day count's band. |
| DealCard.CardWeightedValue | src/components/DealCard.tsx:52 | A truthy probability gives `value·p/100`. An absent or zero probability gives the full value. |
| DealCard.ZeroProbabilityShowsFullValue | src/components/DealCard.tsx:52 | At probability 0 the card shows the full value while the panel shows 0, whenever the value is non-zero. |
| DealCard.CategoryColor | src/components/DealCard.tsx:99 | A known category gets its own colour; any other gets PIPELINE's. |
| DealCard.CategoryText | src/components/DealCard.tsx:100 | Only the first underscore of the category becomes a space. Everything else is kept. |
| DealCard.BestCaseText | src/components/DealCard.tsx:100 | `BEST_CASE` reads `BEST CASE`. |
| DealCard.SecondUnderscoreKept | src/components/DealCard.tsx:100 | A second underscore survives the replacement. |
| DealCard.CardCloseLabel | src/components/DealCard.tsx:110-112 | The card reads `Nd overdue` or `Nd`, and parses back to the day count. |
| DealCard.CardCloseColor | src/components/DealCard.tsx:105-109 | The card's colour is the colour of the day count's band. |
| DealCard.CardAndPanelBandsAgree | src/components/DealCard.tsx:105-109 | The card's and the panel's colours for a day count agree exactly when it is not in the "later than 30 days" band, where the greys differ. |
| DealCard.Strip | src/components/DealCard.tsx:92-116 | The forecast strip appears exactly when a probability is given, even 0. It carries the card's weighted value. It has a category tag exactly when the category is non-empty, carrying the first-underscore-replaced text and the category colour. It has a close tag exactly when a close date is given. That tag's caption reads back to the ceiling day count, and its colour is the card colour of that count. |
| Quota.Percentage | src/components/QuotaProgress.tsx:14 | Percentage times goal is `100·ytdClosed` for a positive goal. It is 0 otherwise. |
| Quota.Capped | src/components/QuotaProgress.tsx:15 | The bar width is the percentage capped at 100. |
| Quota.BandOf | src/components/QuotaProgress.tsx:37-45 | Met, on track, at risk and behind partition the percentage at 100, 75 and 50. |
| Quota.BarAndTextAgree | src/components/QuotaProgress.tsx:37-59 | The bar and the figure below it always share a hue. |
| Quota.CappingKeepsBand | src/components/QuotaProgress.tsx:15-45 | The colours are chosen from the uncapped percentage, but banding the capped bar width would give the same band for every percentage. |
| Quota.BandMonotone | src/components/QuotaProgress.tsx:37-45 | A higher percentage never gives a lower band. |
| Quota.MoreClosedNeverLowersBand | src/components/QuotaProgress.tsx:14-45 | For a fixed goal, closing more never lowers the band. |
| Meddic.Initial | src/components/MEDDICForm.tsx:67-74 | Each missing field starts as the empty string. Present ones are copied. |
| Meddic.SetField | src/components/MEDDICForm.tsx:177-178 | Editing a field changes that field only. |
| Meddic.Segments | src/components/MEDDICForm.tsx:128-139 | Six segments in field order, each lit exactly when its field is non-empty. |
| Meddic.Score | src/components/MEDDICForm.tsx:76-85 | The score is at most 6 and equals the number of lit segments. |
| Meddic.ScoreDependsOnlyOnFilled | src/components/MEDDICForm.tsx:76-85 | Two forms with the same fields filled have the same score. |
| Meddic.EditMovesScoreByAtMostOne | src/components/MEDDICForm.tsx:177-178 | One edit moves the score by at most one. |
| Meddic.EditScoreStep | src/components/MEDDICForm.tsx:177-178 | Filling an empty field raises the score by one. Clearing a filled one lowers it by one. Otherwise it is unchanged. |
| Meddic.ScoreBandOf | src/components/MEDDICForm.tsx:88-91 | Low, mid and high partition the score at 2 and 4. |
| Meddic.BadgeColoursAgree | src/components/MEDDICForm.tsx:88-91 | The badge's text and background colours always share a hue. |
| ActivityTimeline.IconFor | src/components/ActivityTimeline.tsx:21-27 | Each of the five known activity types has its own icon. Any other type falls back to NOTE's. |
| ActivityTimeline.DaysUntilDue | src/components/ActivityTimeline.tsx:92-94 | There is no count exactly when the due date is absent or empty. Otherwise it is the ceiling day count to it. |
| ActivityTimeline.DueSuffix | src/components/ActivityTimeline.tsx:152-154 | ` (Overdue!)`, ` (Today!)` and ` (Tomorrow)` appear exactly for a negative count, 0 and 1. At most one appears. |
| ActivityTimeline.DueColor | src/components/ActivityTimeline.tsx:143-149 | Red exactly when overdue, orange exactly for 0..3 days, yellow otherwise. |
| ActivityTimeline.Render | src/components/ActivityTimeline.tsx:76-104 | An empty list renders the empty state. Otherwise there is one item per activity, with a connector exactly when it is not last. A due line appears exactly when next steps and a due date are both present. It carries the colour and the suffix of that activity's day count. |
| ActivityTimeline.ConnectorCount | src/components/ActivityTimeline.tsx:89-104 | A timeline of n activities draws n-1 connectors. |

## Left out

- The `500` paths of every handler: the model's database and disk never fail, and request
  bodies arrive as already-parsed records, so the `catch` branches are unreachable in it. In
  the source they are also reached by a body that is not JSON (`request.json()`), a JSON
  `null` body (its destructuring throws) and a malformed form (`request.formData()`).
- Non-atomic upload: the source writes the file, then creates the record. A failed record
  insert leaves an orphan file. The model performs both as one step.
- UploadRoute.Upload: the bytes are keyed by the record's relative `filepath`. The source
  writes them to `path.join(process.cwd(), "uploads", dealId, filename)` after `mkdir`.
  That join normalises `/` and `..` in the client-supplied file name, so a name such as
  `../../x` lands at `uploads/<dealId>/x` or outside `uploads/`, while the record keeps the
  raw name. The contract's storage clause therefore describes the disk only for file names
  without path separators or `..` segments. Path normalisation is not modelled.
- ActivityTimeline.IconFor: the fallback to the NOTE icon is stated for every type not in
  the icon table. In the source the table is a plain object, so a type named after an
  inherited `Object.prototype` member (`toString`, `constructor`, `__proto__`, …) yields a
  truthy inherited value and no fallback. The activity type is only checked for being
  non-empty where activities are created. Inherited object members are not modelled.
- DealCard.CategoryColor: the fallback to the PIPELINE colour is likewise stated for every
  category not in the colour table. Inherited `Object.prototype` names are not modelled.
- `parseFloat` on the amounts: the body's amounts are taken as already-parsed reals.
  Non-numeric strings (`NaN`) are not modelled.
- Enum validation by the database schema: `stage`, `category` and `forecastCategory`
  are strings, and the database's rejection of unknown values is not modelled.
- `startOfYear`: computed from the local clock in the source. Here it is a parameter, and
  `uploadedAt` is the same clock reading as the upload timestamp.
- Date parsing: `new Date(text)` is the parameter `instantOf`. Invalid dates (`NaN`
  differences) are not modelled.
- Days.DaysUntil: exact integer ceiling of exact integer division. Floating-point rounding
  of `diff / 86400000` is not modelled.
- Forecasting.WeightedValue and Quota.Percentage: real arithmetic. Floating-point rounding,
  and number formatting (`toLocaleString`, `formatCurrency`, `formatPercent`), are not modelled.
- Labels: numbers are rendered as decimal digits. JavaScript's exponent notation for
  magnitudes of 10^21 and above is not modelled.
- Ordering among deals or files with equal timestamps: left unspecified (the listing
  contracts state sortedness and membership with multiplicity only). The result order of
  Prisma's `groupBy` is likewise unspecified.
- React `cache` and `Promise.all`: they change neither the results nor their order here.
- next-auth: session lookup, the `callbackUrl` query on the sign-in redirect and the
  middleware `matcher` list are not modelled. The middleware's redirect target is
  next-auth's default `/api/auth/signin`, because it is given no `pages` option. The further
  hop from that route to the app's `/login` page happens inside next-auth and is not modelled.
- The forms' save handlers (`fetch` PUT, `router.refresh`), the timeline's delete button,
  the MEDDIC expand/collapse toggle and the slider's `parseInt`: user-interface effects
  with no derived value.
- Markup, date/time formatting and stage labels/colours in the components: presentation only.
- Other API routes (the deal detail GET/PUT/DELETE, activities, file download) and the file
  category filtering for client downloads are not part of this model. The deal list and
  deal detail pages fetch the API routes rather than calling `getDeals`/`getDealById`; the
  detail route answers 404 and 403 separately, so the `getDealById` property above does not
  carry over to the detail page.

=== FILE: activity_timeline.dfy ===
/** The activity timeline: per-item icon, the connector line between items,
    and the next-steps due line with its urgency colour and suffix. */
module ActivityTimeline {
  import opened Wrappers
  import opened Records
  import opened Days

  /** The fields of an activity the timeline's logic reads. */
  datatype Activity = Activity(activityType: string, nextSteps: Option<string>, nextStepsDue: Option<string>)

  datatype IconInfo = IconInfo(icon: string, color: string, bg: string)

  const ACTIVITY_ICONS: map<string, IconInfo> := map[
    "CALL" := IconInfo("\U{1F4DE}", "text-green-600", "bg-green-100"),
    "EMAIL" := IconInfo("\U{1F4E7}", "text-blue-600", "bg-blue-100"),
    "MEETING" := IconInfo("\U{1F91D}", "text-purple-600", "bg-purple-100"),
    "DEMO" := IconInfo("\U{1F4BB}", "text-orange-600", "bg-orange-100"),
    "NOTE" := IconInfo("\U{1F4DD}", "text-gray-600", "bg-gray-100")]

  /** The icon for an activity type; an unknown type gets the NOTE icon. */
  function IconFor(activityType: string): (i: IconInfo)
    ensures activityType in ACTIVITY_ICONS ==> i == ACTIVITY_ICONS[activityType]
    ensures activityType !in ACTIVITY_ICONS ==> i == ACTIVITY_ICONS["NOTE"]
  {
    if activityType in ACTIVITY_ICONS then ACTIVITY_ICONS[activityType] else ACTIVITY_ICONS["NOTE"]
  }

  /** Days until the next step is due; none without a due date. `instantOf`
      stands for parsing the date text into milliseconds. */
  function DaysUntilDue(a: Activity, now: int, instantOf: string -> int): (r: Option<int>)
    ensures r.None? <==> !Truthy(a.nextStepsDue)
    ensures r.Some? ==>
      (r.value - 1) * MS_PER_DAY < instantOf(a.nextStepsDue.value) - now <= r.value * MS_PER_DAY
  {
    if Truthy(a.nextStepsDue) then Some(DaysUntil(instantOf(a.nextStepsDue.value), now)) else None
  }

  const OVERDUE_NOTE := " (Overdue!)"
  const TODAY_NOTE := " (Today!)"
  const TOMORROW_NOTE := " (Tomorrow)"

  /** The three conditional suffixes, written one after the other as the
      timeline does. At most one of them is ever non-empty. */
  function DueSuffix(days: Option<int>): (s: string)
    ensures s == OVERDUE_NOTE <==> days.Some? && days.value < 0
    ensures s == TODAY_NOTE <==> days == Some(0)
    ensures s == TOMORROW_NOTE <==> days == Some(1)
    ensures s == "" <==> days.None? || days.value > 1
  {
    assert TOMORROW_NOTE[2] != OVERDUE_NOTE[2] && |TODAY_NOTE| != |OVERDUE_NOTE| && |TODAY_NOTE| != |TOMORROW_NOTE|;
    (if days.Some? && days.value < 0 then OVERDUE_NOTE else "")
    + (if days == Some(0) then TODAY_NOTE else "")
    + (if days == Some(1) then TOMORROW_NOTE else "")
  }

  /** The due line's colour: red when overdue, orange up to three days out,
      yellow otherwise. */
  function DueColor(days: Option<int>): (c: string)
    ensures c == "text-red-600" <==> days.Some? && days.value < 0
    ensures c == "text-orange-600" <==> days.Some? && 0 <= days.value <= 3
    ensures c == "text-yellow-600" <==> days.None? || days.value > 3
  {
    if days.Some? && days.value < 0 then "text-red-600"
    else if days.Some? && days.value <= 3 then "text-orange-600"
    else "text-yellow-600"
  }

  datatype DueLine = DueLine(color: string, suffix: string)

  datatype TimelineItem = TimelineItem(icon: IconInfo, connector: bool, due: Option<DueLine>)

  datatype Timeline = EmptyState | Items(items: seq<TimelineItem>)

  function RenderItem(acts: seq<Activity>, i: int, now: int, instantOf: string -> int): TimelineItem
    requires 0 <= i < |acts|
  {
    var a := acts[i];
    var days := DaysUntilDue(a, now, instantOf);
    TimelineItem(
      IconFor(a.activityType),
      i != |acts| - 1,
      if Truthy(a.nextSteps) && Truthy(a.nextStepsDue) then Some(DueLine(DueColor(days), DueSuffix(days))) else None)
  }

  /** The timeline: an empty-state message for no activities, otherwise one
      item per activity, with a connector below every item but the last and
      a due line for items that have both next steps and a due date. */
  function Render(acts: seq<Activity>, now: int, instantOf: string -> int): (t: Timeline)
    ensures t.EmptyState? <==> |acts| == 0
    ensures t.Items? ==> |t.items| == |acts|
    ensures t.Items? ==> forall i :: 0 <= i < |acts| ==> (t.items[i].connector <==> i < |acts| - 1)
    ensures t.Items? ==> forall i :: 0 <= i < |acts| ==> t.items[i].icon == IconFor(acts[i].activityType)
    ensures t.Items? ==> forall i :: 0 <= i < |acts| ==>
      (t.items[i].due.Some? <==> Truthy(acts[i].nextSteps) && Truthy(acts[i].nextStepsDue))
    ensures t.Items? ==> forall i :: 0 <= i < |acts| && t.items[i].due.Some? ==>
      t.items[i].due.value == DueLine(DueColor(DaysUntilDue(acts[i], now, instantOf)),
                                      DueSuffix(DaysUntilDue(acts[i], now, instantOf)))
  {
    if |acts| == 0 then EmptyState
    else Items(seq(|acts|, i requires 0 <= i < |acts| => RenderItem(acts, i, now, instantOf)))
  }

  function CountConnectors(items: seq<TimelineItem>): nat {
    if |items| == 0 then 0 else (if items[0].connector then 1 else 0) + CountConnectors(items[1..])
  }

  lemma {:induction false} ConnectorsAllButLast(items: seq<TimelineItem>)
    requires |items| > 0
    requires forall i :: 0 <= i < |items| ==> (items[i].connector <==> i < |items| - 1)
    ensures CountConnectors(items) == |items| - 1
    decreases |items|
  {
    if |items| > 1 {
      ConnectorsAllButLast(items[1..]);
    }
  }

  /** A timeline of n activities draws n - 1 connector lines. */
  lemma ConnectorCount(acts: seq<Activity>, now: int, instantOf: string -> int)
    requires |acts| > 0
    ensures CountConnectors(Render(acts, now, instantOf).items) == |acts| - 1
  {
    ConnectorsAllButLast(Render(acts, now, instantOf).items);
  }
}

=== FILE: data.dfy ===
/** The server-side query helpers `getDeals`, `getDealById`,
    `getDashboardStats` and `getClientDeals` (`src/lib/data.ts`). Request-level caching has no observable effect on a
    pure function and is not modelled. */
module Data {
  import opened Wrappers
  import opened Records
  import opened Query
  import opened Ordering

  /** `...(stage && { stage })`: a stage condition only for a truthy stage. */
  function StageCondition(stage: Option<string>): Option<set<string>> {
    if Truthy(stage) then Some({stage.value}) else None
  }

  /** Whether a deal passes the optional stage filter. */
  predicate StageAccepts(stage: Option<string>, d: Deal) {
    !Truthy(stage) || d.stage == stage.value
  }

  /** The where clause of a sales rep's deal list. */
  function RepDeals(userId: string, stage: Option<string>): DealWhere {
    DealWhere(None, Some(userId), None, StageCondition(stage), None)
  }

  /** The where clause of a client company's deal list. */
  function CompanyDeals(companyName: string): DealWhere {
    DealWhere(None, None, Some(companyName), Some(CLIENT_STAGES), None)
  }

  /** `getDeals(userId, stage)`: the rep's own deals, narrowed to one stage
      only when a non-empty stage is given, newest first. */
  function GetDeals(db: seq<Deal>, userId: string, stage: Option<string>): (r: seq<Deal>)
    ensures SortedDesc(r, UpdatedAt)
    ensures forall d :: d in r <==> d in db && d.salesRepId == userId && StageAccepts(stage, d)
    ensures forall d :: multiset(r)[d] == (if d.salesRepId == userId && StageAccepts(stage, d) then multiset(db)[d] else 0)
  {
    FindMany(db, RepDeals(userId, stage))
  }

  /** A deal together with its files, newest upload first. */
  datatype DealWithFiles = DealWithFiles(deal: Deal, files: seq<FileRecord>)

  /** `getDealById(dealId, userId)`: the deal with that id, provided the
      caller owns it. */
  function GetDealById(db: seq<Deal>, files: seq<FileRecord>, dealId: string, userId: string): (r: Option<DealWithFiles>)
    ensures r.Some? <==> exists d :: d in db && d.id == dealId && d.salesRepId == userId
    ensures r.Some? ==> r.value.deal in db && r.value.deal.id == dealId && r.value.deal.salesRepId == userId
    ensures r.Some? ==> SortedDesc(r.value.files, UploadedAt)
    ensures r.Some? ==> forall f :: f in r.value.files <==> f in files && f.dealId == dealId
    ensures r.Some? ==> forall f :: multiset(r.value.files)[f] == (if f.dealId == dealId then multiset(files)[f] else 0)
  {
    var w := DealWhere(Some(dealId), Some(userId), None, None, None);
    match FindFirst(db, w)
    case None => None
    case Some(d) => Some(DealWithFiles(d, FilesOf(files, dealId)))
  }

  /** Looking a deal up in a table narrowed by a condition the lookup
      already implies gives the same answer as in the whole table. */
  lemma {:induction false} FindFirstOfFilter(db: seq<Deal>, outer: DealWhere, w: DealWhere)
    requires forall d :: Matches(w, d) ==> Matches(outer, d)
    ensures FindFirst(Filter(db, outer), w) == FindFirst(db, w)
    decreases |db|
  {
    if |db| > 0 {
      FindFirstOfFilter(db[1..], outer, w);
    }
  }

  /** Another rep's deal is indistinguishable from a missing one: the answer
      depends only on the caller's own deals. */
  lemma ForeignDealLooksMissing(db: seq<Deal>, files: seq<FileRecord>, dealId: string, userId: string)
    ensures GetDealById(db, files, dealId, userId)
         == GetDealById(Filter(db, RepDeals(userId, None)), files, dealId, userId)
  {
    FindFirstOfFilter(db, RepDeals(userId, None), DealWhere(Some(dealId), Some(userId), None, None, None));
  }

  // ---- Dashboard statistics ------------------------------------------------

  /** One row of the `groupBy(["stage"])` result. */
  datatype StageCount = StageCount(stage: string, count: nat)

  datatype DashboardStats = DashboardStats(ytdClosed: real, dealsByStage: seq<StageCount>, recentDeals: seq<Deal>)

  /** Number of deals recorded in the dashboard's recent list (`take: 5`). */
  const RECENT_LIMIT: nat := 5

  /** `reduce((sum, deal) => sum + deal.dealValue, 0)`. */
  function SumValues(ds: seq<Deal>): real {
    if |ds| == 0 then 0.0 else ds[0].dealValue + SumValues(ds[1..])
  }

  lemma {:induction false} SumValuesConcat(a: seq<Deal>, b: seq<Deal>)
    ensures SumValues(a + b) == SumValues(a) + SumValues(b)
    decreases |a|
  {
    if |a| == 0 {
      assert a + b == b;
    } else {
      assert (a + b)[1..] == a[1..] + b;
      SumValuesConcat(a[1..], b);
      assert SumValues(a + b) == a[0].dealValue + SumValues(a[1..] + b);
    }
  }

  lemma {:induction false} FilterConcat(a: seq<Deal>, b: seq<Deal>, w: DealWhere)
    ensures Filter(a + b, w) == Filter(a, w) + Filter(b, w)
    decreases |a|
  {
    if |a| == 0 {
      assert a + b == b;
    } else {
      assert (a + b)[1..] == a[1..] + b;
      FilterConcat(a[1..], b, w);
      if Matches(w, a[0]) {
        assert Filter(a + b, w) == [a[0]] + Filter(a[1..] + b, w);
        assert [a[0]] + (Filter(a[1..], w) + Filter(b, w)) == ([a[0]] + Filter(a[1..], w)) + Filter(b, w);
      } else {
        assert Filter(a + b, w) == Filter(a[1..] + b, w);
      }
    }
  }

  /** The rep's deals won since the start of the year. */
  function WonSince(userId: string, startOfYear: int): DealWhere {
    DealWhere(None, Some(userId), None, Some({WON}), Some(startOfYear))
  }

  /** Year-to-date closed value. `startOfYear` is midnight of 1 January of
      the current year, read from the clock by the caller. */
  function YtdClosed(db: seq<Deal>, userId: string, startOfYear: int): (r: real)
    ensures (forall d :: d in db ==> !Matches(WonSince(userId, startOfYear), d)) ==> r == 0.0
    ensures (forall d :: d in db ==> d.dealValue >= 0.0) ==> r >= 0.0
  {
    var won := Filter(db, WonSince(userId, startOfYear));
    assert (forall d :: d in db ==> !Matches(WonSince(userId, startOfYear), d)) ==> won == [] by {
      if |won| > 0 { assert won[0] in won; }
    }
    NonNegativeSum(won);
    SumValues(won)
  }

  lemma {:induction false} NonNegativeSum(ds: seq<Deal>)
    ensures (forall d :: d in ds ==> d.dealValue >= 0.0) ==> SumValues(ds) >= 0.0
    decreases |ds|
  {
    if |ds| > 0 {
      NonNegativeSum(ds[1..]);
      assert forall d :: d in ds[1..] ==> d in ds;
    }
  }

  /** The year-to-date total over two tables is the sum of their totals, so
      only the rep's own won deals since the start of the year contribute. */
  lemma YtdClosedAdditive(a: seq<Deal>, b: seq<Deal>, userId: string, startOfYear: int)
    ensures YtdClosed(a + b, userId, startOfYear) == YtdClosed(a, userId, startOfYear) + YtdClosed(b, userId, startOfYear)
  {
    var w := WonSince(userId, startOfYear);
    FilterConcat(a, b, w);
    SumValuesConcat(Filter(a, w), Filter(b, w));
  }

  /** Winning one more deal this year adds exactly its value; any other new
      deal adds nothing. */
  lemma YtdClosedOfNewDeal(db: seq<Deal>, d: Deal, userId: string, startOfYear: int)
    ensures YtdClosed(db + [d], userId, startOfYear)
         == YtdClosed(db, userId, startOfYear)
          + (if d.salesRepId == userId && d.stage == WON && d.updatedAt >= startOfYear then d.dealValue else 0.0)
  {
    var w := WonSince(userId, startOfYear);
    YtdClosedAdditive(db, [d], userId, startOfYear);
    assert [d][1..] == [];
    assert Filter([d], w) == if Matches(w, d) then [d] else [];
    assert SumValues([d]) == d.dealValue;
  }

  /** Number of deals in `ds` at `stage`. */
  function CountStage(ds: seq<Deal>, stage: string): nat {
    if |ds| == 0 then 0 else (if ds[0].stage == stage then 1 else 0) + CountStage(ds[1..], stage)
  }

  /** The count a group-by result records for `stage` (0 when absent). */
  function CountOf(es: seq<StageCount>, stage: string): nat {
    if |es| == 0 then 0 else (if es[0].stage == stage then es[0].count else 0) + CountOf(es[1..], stage)
  }

  function SumCounts(es: seq<StageCount>): nat {
    if |es| == 0 then 0 else es[0].count + SumCounts(es[1..])
  }

  /** The stages that have a row. */
  function Stages(es: seq<StageCount>): set<string> {
    if |es| == 0 then {} else {es[0].stage} + Stages(es[1..])
  }

  /** Each stage has at most one row. */
  predicate DistinctStages(es: seq<StageCount>) {
    |es| == 0 || (es[0].stage !in Stages(es[1..]) && DistinctStages(es[1..]))
  }

  /** Every row records at least one deal. */
  predicate PositiveCounts(es: seq<StageCount>) {
    forall i :: 0 <= i < |es| ==> es[i].count > 0
  }

  /** Counts one more deal at `stage`. */
  function Tally(es: seq<StageCount>, stage: string): (r: seq<StageCount>)
    requires DistinctStages(es) && PositiveCounts(es)
    ensures DistinctStages(r) && PositiveCounts(r)
    ensures Stages(r) == Stages(es) + {stage}
    ensures SumCounts(r) == SumCounts(es) + 1
    ensures forall s :: CountOf(r, s) == CountOf(es, s) + (if s == stage then 1 else 0)
  {
    if |es| == 0 then [StageCount(stage, 1)]
    else if es[0].stage == stage then
      var r := [StageCount(stage, es[0].count + 1)] + es[1..];
      assert r[1..] == es[1..];
      r
    else
      var rest := Tally(es[1..], stage);
      var r := [es[0]] + rest;
      assert r[1..] == rest;
      r
  }

  /** `groupBy({ by: ["stage"], _count: { stage: true } })` over `ds`. */
  function GroupByStage(ds: seq<Deal>): (r: seq<StageCount>)
    ensures DistinctStages(r) && PositiveCounts(r)
    ensures forall s :: CountOf(r, s) == CountStage(ds, s)
    ensures SumCounts(r) == |ds|
  {
    if |ds| == 0 then [] else Tally(GroupByStage(ds[1..]), ds[0].stage)
  }

  /** The rep's deals at `stage` are counted the same way by the group-by
      over the rep's deals and by a stage-filtered listing. */
  lemma {:induction false} CountStageOfOwned(db: seq<Deal>, userId: string, stage: string)
    requires stage != ""
    ensures CountStage(Filter(db, RepDeals(userId, None)), stage) == |Filter(db, RepDeals(userId, Some(stage)))|
    decreases |db|
  {
    if |db| > 0 {
      CountStageOfOwned(db[1..], userId, stage);
      var f := Filter(db[1..], RepDeals(userId, None));
      if Matches(RepDeals(userId, None), db[0]) {
        assert ([db[0]] + f)[1..] == f;
      }
    }
  }

  /** The rep's five most recently updated deals: a prefix of the rep's
      list, and no deal left out is newer than one kept. */
  function RecentDeals(db: seq<Deal>, userId: string): (r: seq<Deal>)
    ensures |r| == if |Filter(db, RepDeals(userId, None))| <= RECENT_LIMIT
                   then |Filter(db, RepDeals(userId, None))| else RECENT_LIMIT
    ensures SortedDesc(r, UpdatedAt)
    ensures forall d :: d in r ==> d in db && d.salesRepId == userId
    ensures multiset(r) <= multiset(Filter(db, RepDeals(userId, None)))
    ensures forall d, i :: d in db && d.salesRepId == userId && d !in r && 0 <= i < |r|
                       ==> d.updatedAt <= r[i].updatedAt
    ensures forall d, i :: d in multiset(Filter(db, RepDeals(userId, None))) - multiset(r) && 0 <= i < |r|
                       ==> d.updatedAt <= r[i].updatedAt
  {
    var owned := FindMany(db, RepDeals(userId, None));
    RecentShape(db, userId);
    RecentOmitted(db, userId);
    Take(owned, RECENT_LIMIT)
  }

  /** Length, order and contents of the first five of the rep's list. */
  lemma RecentShape(db: seq<Deal>, userId: string)
    ensures var owned := FindMany(db, RepDeals(userId, None));
      var r := Take(owned, RECENT_LIMIT);
      && |r| == (if |Filter(db, RepDeals(userId, None))| <= RECENT_LIMIT
                 then |Filter(db, RepDeals(userId, None))| else RECENT_LIMIT)
      && SortedDesc(r, UpdatedAt)
      && (forall d :: d in r ==> d in db && d.salesRepId == userId)
      && multiset(r) <= multiset(Filter(db, RepDeals(userId, None)))
  {
    var owned := FindMany(db, RepDeals(userId, None));
    var r := Take(owned, RECENT_LIMIT);
    FindManyBag(db, RepDeals(userId, None));
    TakeSubBag(owned, RECENT_LIMIT);
    assert |owned| == |Filter(db, RepDeals(userId, None))|;
    SortedTake(owned, UpdatedAt, RECENT_LIMIT);
    assert forall d :: d in r ==> d in owned;
  }

  /** Nothing the first five of the rep's list leave out is newer than what
      they keep. */
  lemma RecentOmitted(db: seq<Deal>, userId: string)
    ensures var owned := FindMany(db, RepDeals(userId, None));
      var r := Take(owned, RECENT_LIMIT);
      && (forall d, i :: d in db && d.salesRepId == userId && d !in r && 0 <= i < |r|
                      ==> d.updatedAt <= r[i].updatedAt)
      && (forall d, i :: d in multiset(Filter(db, RepDeals(userId, None))) - multiset(r) && 0 <= i < |r|
                      ==> d.updatedAt <= r[i].updatedAt)
  {
    var owned := FindMany(db, RepDeals(userId, None));
    FindManyBag(db, RepDeals(userId, None));
    OmittedNotNewer(owned, RECENT_LIMIT);
  }

  /** What a `take: n` of a newest-first list leaves out, counted with
      multiplicity, is no newer than anything it keeps. */
  lemma OmittedNotNewer(owned: seq<Deal>, n: nat)
    requires SortedDesc(owned, UpdatedAt)
    ensures forall d, i :: d in multiset(owned) - multiset(Take(owned, n)) && 0 <= i < |Take(owned, n)|
                       ==> d.updatedAt <= Take(owned, n)[i].updatedAt
    ensures forall d :: d in owned && d !in Take(owned, n) ==> d in multiset(owned) - multiset(Take(owned, n))
  {
    var recent := Take(owned, n);
    var rest := owned[|recent|..];
    assert owned == recent + rest;
    assert multiset(owned) - multiset(recent) == multiset(rest);
    forall d, i | d in rest && 0 <= i < |recent|
      ensures d.updatedAt <= recent[i].updatedAt
    {
      var k :| 0 <= k < |rest| && rest[k] == d;
      PrefixDominates(owned, UpdatedAt, n, i, |recent| + k);
    }
  }

  /** `getDashboardStats(userId)`. */
  function GetDashboardStats(db: seq<Deal>, userId: string, startOfYear: int): (r: DashboardStats)
    ensures r.ytdClosed == YtdClosed(db, userId, startOfYear)
    ensures forall s :: CountOf(r.dealsByStage, s) == CountStage(Filter(db, RepDeals(userId, None)), s)
    ensures SumCounts(r.dealsByStage) == |Filter(db, RepDeals(userId, None))|
    ensures DistinctStages(r.dealsByStage) && PositiveCounts(r.dealsByStage)
    ensures r.recentDeals == RecentDeals(db, userId)
  {
    DashboardStats(
      YtdClosed(db, userId, startOfYear),
      GroupByStage(Filter(db, RepDeals(userId, None))),
      RecentDeals(db, userId))
  }

  /** For every non-empty stage, the dashboard's count equals the length of
      the rep's deal list filtered to that stage. */
  lemma StageCountsMatchListing(db: seq<Deal>, userId: string, startOfYear: int, stage: string)
    requires stage != ""
    ensures CountOf(GetDashboardStats(db, userId, startOfYear).dealsByStage, stage)
         == |GetDeals(db, userId, Some(stage))|
  {
    CountStageOfOwned(db, userId, stage);
  }

  /** `getClientDeals(companyName)`: the company's quoted and won deals,
      newest first. */
  function GetClientDeals(db: seq<Deal>, companyName: string): (r: seq<Deal>)
    ensures SortedDesc(r, UpdatedAt)
    ensures forall d :: d in r <==> d in db && d.clientCompanyName == companyName && d.stage in CLIENT_STAGES
    ensures forall d :: multiset(r)[d] == (if d.clientCompanyName == companyName && d.stage in CLIENT_STAGES then multiset(db)[d] else 0)
  {
    FindMany(db, CompanyDeals(companyName))
  }
}

=== FILE: days.dfy ===
/** Whole days from now until an instant, rounded up, as the deal card, the
    forecasting panel and the activity timeline all compute it
    (`Math.ceil((target - now) / (1000 * 60 * 60 * 24))`). Instants are
    integral milliseconds, so the division is exact here. */
module Days {

  const MS_PER_DAY: int := 1000 * 60 * 60 * 24

  /** Ceiling of `(target - now) / MS_PER_DAY`; negative once the instant is
      at least one full day past. */
  function DaysUntil(target: int, now: int): (d: int)
    ensures (d - 1) * MS_PER_DAY < target - now <= d * MS_PER_DAY
  {
    -((now - target) / MS_PER_DAY)
  }

  /** The rounding bounds determine the day count. */
  lemma DaysUntilUnique(target: int, now: int, d: int)
    requires (d - 1) * MS_PER_DAY < target - now <= d * MS_PER_DAY
    ensures DaysUntil(target, now) == d
  {
    var e := DaysUntil(target, now);
    assert (e - 1) * MS_PER_DAY < d * MS_PER_DAY && (d - 1) * MS_PER_DAY < e * MS_PER_DAY;
  }

  /** A later instant is never fewer days away. */
  lemma DaysUntilMonotone(t1: int, t2: int, now: int)
    requires t1 <= t2
    ensures DaysUntil(t1, now) <= DaysUntil(t2, now)
  {
    var d1 := DaysUntil(t1, now);
    var d2 := DaysUntil(t2, now);
    assert (d1 - 1) * MS_PER_DAY < d2 * MS_PER_DAY;
  }

  /** The urgency bands of an expected close date: overdue, within a week,
      within a month, later. */
  datatype CloseBand = Overdue | ThisWeek | ThisMonth | Later

  /** The `< 0`, `<= 7`, `<= 30` cascade shared by the deal card and the
      forecasting panel. */
  function CloseBandOf(d: int): (b: CloseBand)
    ensures b == Overdue <==> d < 0
    ensures b == ThisWeek <==> 0 <= d <= 7
    ensures b == ThisMonth <==> 8 <= d <= 30
    ensures b == Later <==> d > 30
  {
    if d < 0 then Overdue else if d <= 7 then ThisWeek else if d <= 30 then ThisMonth else Later
  }
}

=== FILE: deal_card.dfy ===
/** The forecast strip of a deal card: weighted value with the falsy-
    probability fallback, the forecast-category tag, and the close-date
    badge. */
module DealCard {
  import opened Wrappers
  import opened Records
  import opened Text
  import opened Days
  import Forecasting

  /** `probability ? dealValue * probability / 100 : dealValue`: an absent
      or zero probability shows the full value. */
  function CardWeightedValue(dealValue: real, probability: Option<real>): (w: real)
    ensures probability.Some? && probability.value != 0.0 ==>
      w == Forecasting.WeightedValue(dealValue, probability.value)
    ensures probability.None? || probability.value == 0.0 ==> w == dealValue
  {
    if probability.Some? && probability.value != 0.0 then dealValue * probability.value / 100.0 else dealValue
  }

  /** At zero probability the card and the forecasting panel disagree as
      soon as the deal has a value: the panel weighs it to 0, the card shows
      the whole value. */
  lemma ZeroProbabilityShowsFullValue(dealValue: real)
    requires dealValue != 0.0
    ensures CardWeightedValue(dealValue, Some(0.0)) == dealValue
    ensures Forecasting.WeightedValue(dealValue, 0.0) == 0.0
    ensures CardWeightedValue(dealValue, Some(0.0)) != Forecasting.WeightedValue(dealValue, 0.0)
  {
  }

  /** The category colours; an unknown category takes the PIPELINE colour. */
  const CATEGORY_COLORS: map<string, string> := map[
    "COMMIT" := "bg-green-100 text-green-700",
    "BEST_CASE" := "bg-blue-100 text-blue-700",
    "PIPELINE" := "bg-gray-100 text-gray-700",
    "OMIT" := "bg-red-100 text-red-700"]

  function CategoryColor(category: string): (c: string)
    ensures category in CATEGORY_COLORS ==> c == CATEGORY_COLORS[category]
    ensures category !in CATEGORY_COLORS ==> c == CATEGORY_COLORS["PIPELINE"]
  {
    if category in CATEGORY_COLORS then CATEGORY_COLORS[category] else CATEGORY_COLORS["PIPELINE"]
  }

  /** `category.replace("_", " ")`: only the first underscore becomes a
      space. */
  function CategoryText(category: string): (t: string)
    ensures |t| == |category|
    ensures forall i :: 0 <= i < |category| ==>
      t[i] == (if category[i] == '_' && '_' !in category[..i] then ' ' else category[i])
  {
    ReplaceFirst(category, '_', ' ')
  }

  lemma BestCaseText()
    ensures CategoryText("BEST_CASE") == "BEST CASE"
  {
    var c := "BEST_CASE";
    var t := CategoryText(c);
    assert forall i | 0 <= i < 4 :: '_' !in c[..i] by {
      forall i | 0 <= i < 4 ensures '_' !in c[..i] {
        assert forall k | 0 <= k < i :: c[..i][k] == c[k];
      }
    }
    assert forall i | 4 < i <= 9 :: '_' in c[..i] by {
      forall i | 4 < i <= 9 ensures '_' in c[..i] { assert c[..i][4] == '_'; }
    }
    assert forall i | 0 <= i < 9 :: t[i] == "BEST CASE"[i];
  }

  /** Only the first underscore is replaced. */
  lemma SecondUnderscoreKept()
    ensures CategoryText("A_B_C") == "A B_C"
  {
    assert "A_B_C"[1..] == "_B_C";
    assert ReplaceFirst("_B_C", '_', ' ') == " B_C";
  }

  const CARD_OVERDUE_SUFFIX := "d overdue"
  const CARD_DAYS_SUFFIX := "d"

  /** Reads a card close badge back as a day count. */
  function ParseCardCloseLabel(s: string): Option<int> {
    match ParseCount(s, CARD_OVERDUE_SUFFIX)
    case Some(n) => if n > 0 then Some(-(n as int)) else None
    case None =>
      match ParseCount(s, CARD_DAYS_SUFFIX)
      case Some(n) => Some(n)
      case None => None
  }

  /** The close badge: "<n>d overdue" when overdue, otherwise "<d>d". The
      badge names exactly one day count. */
  function CardCloseLabel(d: int): (s: string)
    ensures ParseCardCloseLabel(s) == Some(d)
  {
    if d < 0 then
      ParseCountOfRendering(-d, CARD_OVERDUE_SUFFIX);
      NatToString(-d) + CARD_OVERDUE_SUFFIX
    else
      var s := NatToString(d) + CARD_DAYS_SUFFIX;
      assert s[|s| - 1] != CARD_OVERDUE_SUFFIX[|CARD_OVERDUE_SUFFIX| - 1];
      ParseCountOfRendering(d, CARD_DAYS_SUFFIX);
      s
  }

  /** The badge colour: the panel's bands, with a lighter grey for "later". */
  function CardCloseColor(d: int): (c: string)
    ensures c == CardBandColor(CloseBandOf(d))
  {
    if d < 0 then "text-red-600 font-medium"
    else if d <= 7 then "text-orange-600"
    else if d <= 30 then "text-yellow-600"
    else "text-gray-500"
  }

  function CardBandColor(b: CloseBand): string {
    match b
    case Overdue => "text-red-600 font-medium"
    case ThisWeek => "text-orange-600"
    case ThisMonth => "text-yellow-600"
    case Later => "text-gray-500"
  }

  /** The card and the panel agree on every band except the grey shade. */
  lemma CardAndPanelBandsAgree(d: int)
    ensures CloseBandOf(d) != Later <==> CardCloseColor(d) == Forecasting.CloseColor(d)
  {
  }

  datatype CategoryTag = CategoryTag(text: string, color: string)
  datatype CloseTag = CloseTag(caption: string, color: string)
  datatype ForecastStrip = ForecastStrip(probability: real, weightedValue: real, category: Option<CategoryTag>, close: Option<CloseTag>)

  /** The forecast strip of `CardContent`. It is shown whenever a probability
      is given (even 0); the category tag needs a non-empty category, the
      badge a close date. */
  function Strip(dealValue: real, probability: Option<real>, forecastCategory: Option<string>,
                 expectedCloseDate: Option<int>, now: int): (r: Option<ForecastStrip>)
    ensures r.Some? <==> probability.Some?
    ensures r.Some? ==> r.value.probability == probability.value
    ensures r.Some? ==> r.value.weightedValue == CardWeightedValue(dealValue, probability)
    ensures r.Some? ==> (r.value.category.Some? <==> Truthy(forecastCategory))
    ensures r.Some? && r.value.category.Some? ==>
      r.value.category.value == CategoryTag(CategoryText(forecastCategory.value), CategoryColor(forecastCategory.value))
    ensures r.Some? ==> (r.value.close.Some? <==> expectedCloseDate.Some?)
    ensures r.Some? && r.value.close.Some? ==>
      && ParseCardCloseLabel(r.value.close.value.caption) == Some(DaysUntil(expectedCloseDate.value, now))
      && r.value.close.value.color == CardCloseColor(DaysUntil(expectedCloseDate.value, now))
  {
    if probability.None? then None
    else
      var category :=
        if Truthy(forecastCategory)
        then Some(CategoryTag(CategoryText(forecastCategory.value), CategoryColor(forecastCategory.value)))
        else None;
      var close :=
        match expectedCloseDate
        case None => None
        case Some(t) =>
          var d := DaysUntil(t, now);
          Some(CloseTag(CardCloseLabel(d), CardCloseColor(d)));
      Some(ForecastStrip(probability.value, CardWeightedValue(dealValue, probability), category, close))
  }
}

=== FILE: deals_route.dfy ===
/** `GET` and `POST` on `/api/deals`: the role-scoped deal list and deal
    creation. The database is the deal table passed in and, for `POST`,
    returned updated; the clock and the id generator are parameters. */
module DealsRoute {
  import opened Wrappers
  import opened Records
  import opened Query
  import opened Ordering
  import opened Data

  /** `GET /api/deals?stage=...`. A client sees its company's quoted and won
      deals and the stage parameter is not consulted; a sales rep sees its
      own deals, narrowed to the stage when one is given. */
  function ListDeals(db: seq<Deal>, session: Session, stageParam: Option<string>): (r: Response<seq<Deal>>)
    ensures session.None? <==> r == Unauthorized()
    ensures session.Some? ==> r.Ok? && r.status == 200 && SortedDesc(r.value, UpdatedAt)
    ensures session.Some? && session.value.role == Client ==>
      (r.Ok? && forall d :: d in r.value <==>
        d in db && d.clientCompanyName == session.value.companyName.GetOr("") && d.stage in CLIENT_STAGES)
    ensures session.Some? && session.value.role == SalesRep ==>
      (r.Ok? && forall d :: d in r.value <==>
        d in db && d.salesRepId == session.value.id && StageAccepts(stageParam, d))
  {
    if session.None? then Unauthorized()
    else
      var user := session.value;
      if user.role == Client then
        Ok(200, FindMany(db, DealWhere(None, None, Some(user.companyName.GetOr("")), Some({QUOTED, WON}), None)))
      else
        Ok(200, FindMany(db, DealWhere(None, Some(user.id), None, StageCondition(stageParam), None)))
  }

  /** Every row of a signed-in caller's list occurs in it exactly as often as
      in the table when the caller may see it, and not at all otherwise. */
  lemma ListKeepsMultiplicity(db: seq<Deal>, user: User, stageParam: Option<string>, d: Deal)
    ensures var r := ListDeals(db, Some(user), stageParam);
      r.Ok? && multiset(r.value)[d] ==
        (if (user.role == Client && d.clientCompanyName == user.companyName.GetOr("") && d.stage in CLIENT_STAGES)
         || (user.role == SalesRep && d.salesRepId == user.id && StageAccepts(stageParam, d))
         then multiset(db)[d] else 0)
  {
  }

  /** The stage parameter never changes a client's list. */
  lemma ClientListIgnoresStage(db: seq<Deal>, user: User, s1: Option<string>, s2: Option<string>)
    requires user.role == Client
    ensures ListDeals(db, Some(user), s1) == ListDeals(db, Some(user), s2)
  {
  }

  /** A client's list is the client portal query for its company name (the
      empty name when it has none). */
  lemma ClientListIsPortalQuery(db: seq<Deal>, user: User, stageParam: Option<string>)
    requires user.role == Client
    ensures ListDeals(db, Some(user), stageParam) == Ok(200, GetClientDeals(db, user.companyName.GetOr("")))
  {
  }

  /** A rep's list is `getDeals` for the rep's id and the same stage. */
  lemma RepListIsGetDeals(db: seq<Deal>, user: User, stageParam: Option<string>)
    requires user.role == SalesRep
    ensures ListDeals(db, Some(user), stageParam) == Ok(200, GetDeals(db, user.id, stageParam))
  {
  }

  /** The fields of a `POST` body that the handler reads, plus an owner the
      caller might try to smuggle in. Absent keys are `None`. */
  datatype DealInput = DealInput(
    dealName: Option<string>,
    clientCompanyName: Option<string>,
    dealValue: Option<real>,
    grossProfit: Option<real>,
    stage: Option<string>,
    salesRepId: Option<string>)

  /** Name and company must be non-empty strings; the two amounts must be
      present, and 0 counts as present. */
  predicate Complete(body: DealInput) {
    Truthy(body.dealName) && Truthy(body.clientCompanyName) && body.dealValue.Some? && body.grossProfit.Some?
  }

  /** `POST /api/deals`: 401 without a session, then 403 for a non-rep, then
      400 for an incomplete body; otherwise the new deal (owned by the caller,
      stage defaulting to COURTING) is appended and returned with 201. */
  function CreateDeal(db: seq<Deal>, session: Session, body: DealInput, newId: string, now: int): (r: (Response<Deal>, seq<Deal>))
    ensures r.0.status == 401 <==> session.None?
    ensures r.0.status == 403 <==> session.Some? && session.value.role != SalesRep
    ensures r.0.status == 400 <==> session.Some? && session.value.role == SalesRep && !Complete(body)
    ensures r.0.status == 201 <==> session.Some? && session.value.role == SalesRep && Complete(body)
    ensures r.0.status != 201 ==> r.0.Error? && r.1 == db
    ensures r.0.status == 201 ==> r.0.Ok? && r.1 == db + [r.0.value]
    ensures r.0.status == 201 ==>
      (session.Some? && r.0.Ok? &&
      var deal := r.0.value;
      && deal.id == newId
      && deal.salesRepId == session.value.id
      && deal.dealName == body.dealName.value
      && deal.clientCompanyName == body.clientCompanyName.value
      && deal.dealValue == body.dealValue.value
      && deal.grossProfit == body.grossProfit.value
      && deal.stage == (if Truthy(body.stage) then body.stage.value else COURTING)
      && deal.updatedAt == now)
  {
    if session.None? then (Unauthorized(), db)
    else if session.value.role != SalesRep then (Error(403, "Only sales reps can create deals"), db)
    else if !Truthy(body.dealName) || !Truthy(body.clientCompanyName) || body.dealValue.None? || body.grossProfit.None? then
      (Error(400, "Missing required fields"), db)
    else
      var deal := Deal(
        newId,
        session.value.id,
        body.dealName.value,
        body.clientCompanyName.value,
        body.dealValue.value,
        body.grossProfit.value,
        if Truthy(body.stage) then body.stage.value else COURTING,
        now);
      (Ok(201, deal), db + [deal])
  }

  /** A client is refused with 403 whatever it sends, even a body that would
      otherwise be rejected with 400, and nothing is written. */
  lemma ClientCannotCreate(db: seq<Deal>, user: User, body: DealInput, newId: string, now: int)
    requires user.role == Client
    ensures CreateDeal(db, Some(user), body, newId, now) == (Error(403, "Only sales reps can create deals"), db)
  {
  }

  /** Zero amounts are accepted: only absent amounts are refused. */
  lemma ZeroAmountsAccepted(db: seq<Deal>, user: User, name: string, company: string, newId: string, now: int)
    requires user.role == SalesRep && name != "" && company != ""
    ensures CreateDeal(db, Some(user), DealInput(Some(name), Some(company), Some(0.0), Some(0.0), None, None), newId, now).0.status == 201
  {
  }

  /** The owner named in the body is ignored: a new deal always shows up in
      its creator's list, and in no other rep's. */
  lemma CreatedDealListedForCreator(db: seq<Deal>, rep: User, other: User, body: DealInput, newId: string, now: int)
    requires rep.role == SalesRep && other.role == SalesRep && other.id != rep.id
    requires Complete(body)
    ensures var (resp, db') := CreateDeal(db, Some(rep), body, newId, now);
      resp.Ok? && resp.value in ListDeals(db', Some(rep), None).value
      && resp.value !in ListDeals(db', Some(other), None).value
  {
    var (resp, db') := CreateDeal(db, Some(rep), body, newId, now);
    assert resp.value in db';
  }

  /** A client sees a new deal exactly when it names the client's company and
      starts out quoted or won; a default-stage (COURTING) deal is hidden. */
  lemma CreatedDealClientVisibility(db: seq<Deal>, rep: User, client: User, body: DealInput, newId: string, now: int)
    requires rep.role == SalesRep && client.role == Client && Complete(body)
    ensures var (resp, db') := CreateDeal(db, Some(rep), body, newId, now);
      resp.Ok? &&
      (resp.value in ListDeals(db', Some(client), None).value <==>
        body.clientCompanyName.value == client.companyName.GetOr("")
        && Truthy(body.stage) && body.stage.value in CLIENT_STAGES)
  {
    var (resp, db') := CreateDeal(db, Some(rep), body, newId, now);
    assert resp.value in db';
  }
}

=== FILE: forecasting.dfy ===
/** The forecasting panel of a deal: weighted value, probability presets,
    the form state, and the expected-close-date hint. */
module Forecasting {
  import opened Wrappers
  import opened Text
  import opened Days

  /** `dealValue * probability / 100`. */
  function WeightedValue(dealValue: real, probability: real): (w: real)
    ensures w * 100.0 == dealValue * probability
    ensures 0.0 <= probability <= 100.0 && dealValue >= 0.0 ==> 0.0 <= w <= dealValue
    ensures probability == 100.0 ==> w == dealValue
  {
    var w := dealValue * probability / 100.0;
    assert 0.0 <= probability <= 100.0 && dealValue >= 0.0 ==> dealValue * probability <= dealValue * 100.0;
    w
  }

  const PROBABILITY_PRESETS: seq<int> := [10, 25, 50, 75, 90]

  /** The probability slider's range and step. */
  const SLIDER_MIN: int := 0
  const SLIDER_MAX: int := 100
  const SLIDER_STEP: int := 5

  /** Every preset is a position the slider can take. */
  lemma PresetsOnSlider()
    ensures forall i :: 0 <= i < |PROBABILITY_PRESETS| ==>
      SLIDER_MIN <= PROBABILITY_PRESETS[i] <= SLIDER_MAX && PROBABILITY_PRESETS[i] % SLIDER_STEP == 0
  {
  }

  /** The panel's editable state. */
  datatype ForecastForm = ForecastForm(expectedCloseDate: string, probability: int, forecastCategory: string)

  /** The initial state: a missing close date becomes the empty string. */
  function InitialForm(expectedCloseDate: Option<string>, probability: int, forecastCategory: string): (f: ForecastForm)
    ensures expectedCloseDate.None? ==> f.expectedCloseDate == ""
    ensures expectedCloseDate.Some? ==> f.expectedCloseDate == expectedCloseDate.value
    ensures f.probability == probability && f.forecastCategory == forecastCategory
  {
    ForecastForm(expectedCloseDate.GetOr(""), probability, forecastCategory)
  }

  /** Editing the close-date field. */
  function SetCloseDate(f: ForecastForm, date: string): (g: ForecastForm)
    ensures g.expectedCloseDate == date
    ensures g.probability == f.probability && g.forecastCategory == f.forecastCategory
  {
    f.(expectedCloseDate := date)
  }

  /** Clicking a probability preset. */
  function ChoosePreset(f: ForecastForm, preset: int): (g: ForecastForm)
    ensures g.probability == preset
    ensures g.expectedCloseDate == f.expectedCloseDate && g.forecastCategory == f.forecastCategory
  {
    f.(probability := preset)
  }

  /** Clicking a forecast category. */
  function ChooseCategory(f: ForecastForm, category: string): (g: ForecastForm)
    ensures g.forecastCategory == category
    ensures g.expectedCloseDate == f.expectedCloseDate && g.probability == f.probability
  {
    f.(forecastCategory := category)
  }

  /** Days until the expected close date; none while the date field is empty.
      `instantOf` stands for parsing the date text into milliseconds. */
  function DaysUntilClose(f: ForecastForm, now: int, instantOf: string -> int): (r: Option<int>)
    ensures r.None? <==> f.expectedCloseDate == ""
    ensures r.Some? ==>
      (r.value - 1) * MS_PER_DAY < instantOf(f.expectedCloseDate) - now <= r.value * MS_PER_DAY
  {
    if f.expectedCloseDate == "" then None else Some(DaysUntil(instantOf(f.expectedCloseDate), now))
  }

  const OVERDUE_SUFFIX := " days overdue"
  const UNTIL_SUFFIX := " days until close"
  const TODAY_LABEL := "Closing today"

  /** Reads a close-date hint back as a day count. */
  function ParseCloseLabel(s: string): Option<int> {
    if s == TODAY_LABEL then Some(0)
    else match ParseCount(s, OVERDUE_SUFFIX)
      case Some(n) => if n > 0 then Some(-(n as int)) else None
      case None =>
        match ParseCount(s, UNTIL_SUFFIX)
        case Some(n) => if n > 0 then Some(n) else None
        case None => None
  }

  /** The close-date hint: the overdue count, "Closing today", or the days
      remaining. The hint names exactly one day count. */
  function CloseLabel(d: int): (s: string)
    ensures ParseCloseLabel(s) == Some(d)
  {
    if d < 0 then
      var s := NatToString(-d) + OVERDUE_SUFFIX;
      assert s[0] != TODAY_LABEL[0];
      ParseCountOfRendering(-d, OVERDUE_SUFFIX);
      s
    else if d == 0 then TODAY_LABEL
    else
      var s := NatToString(d) + UNTIL_SUFFIX;
      assert s[0] != TODAY_LABEL[0];
      assert s[|s| - |OVERDUE_SUFFIX|] != OVERDUE_SUFFIX[0];
      ParseCountOfRendering(d, UNTIL_SUFFIX);
      s
  }

  /** The hint's text colour, by urgency band. */
  function CloseColor(d: int): (c: string)
    ensures c == PanelBandColor(CloseBandOf(d))
  {
    if d < 0 then "text-red-600 font-medium"
    else if d <= 7 then "text-orange-600"
    else if d <= 30 then "text-yellow-600"
    else "text-gray-600"
  }

  function PanelBandColor(b: CloseBand): string {
    match b
    case Overdue => "text-red-600 font-medium"
    case ThisWeek => "text-orange-600"
    case ThisMonth => "text-yellow-600"
    case Later => "text-gray-600"
  }
}

=== FILE: meddic.dfy ===
/** The MEDDIC qualification form: six free-text fields, the completeness
    score, its colour band, the six-segment bar, and editing one field. */
module Meddic {
  import opened Wrappers

  /** The six fields, in the order the form lists them. */
  datatype MeddicKey = Metrics | EconomicBuyer | DecisionCriteria | DecisionProcess | IdentifyPain | Champion

  const FIELD_ORDER: seq<MeddicKey> :=
    [Metrics, EconomicBuyer, DecisionCriteria, DecisionProcess, IdentifyPain, Champion]

  /** The stored values; each may be null. */
  datatype MeddicInput = MeddicInput(
    metrics: Option<string>,
    economicBuyer: Option<string>,
    decisionCriteria: Option<string>,
    decisionProcess: Option<string>,
    identifyPain: Option<string>,
    champion: Option<string>)

  /** The form state. */
  datatype MeddicForm = MeddicForm(
    metrics: string,
    economicBuyer: string,
    decisionCriteria: string,
    decisionProcess: string,
    identifyPain: string,
    champion: string)

  function InputField(input: MeddicInput, k: MeddicKey): Option<string> {
    match k
    case Metrics => input.metrics
    case EconomicBuyer => input.economicBuyer
    case DecisionCriteria => input.decisionCriteria
    case DecisionProcess => input.decisionProcess
    case IdentifyPain => input.identifyPain
    case Champion => input.champion
  }

  function Field(f: MeddicForm, k: MeddicKey): string {
    match k
    case Metrics => f.metrics
    case EconomicBuyer => f.economicBuyer
    case DecisionCriteria => f.decisionCriteria
    case DecisionProcess => f.decisionProcess
    case IdentifyPain => f.identifyPain
    case Champion => f.champion
  }

  /** The initial state: each field is the stored text, or empty when null. */
  function Initial(input: MeddicInput): (f: MeddicForm)
    ensures forall k :: InputField(input, k).None? ==> Field(f, k) == ""
    ensures forall k :: InputField(input, k).Some? ==> Field(f, k) == InputField(input, k).value
  {
    MeddicForm(
      input.metrics.GetOr(""),
      input.economicBuyer.GetOr(""),
      input.decisionCriteria.GetOr(""),
      input.decisionProcess.GetOr(""),
      input.identifyPain.GetOr(""),
      input.champion.GetOr(""))
  }

  /** Typing into one field (`{ ...formData, [key]: value }`). */
  function SetField(f: MeddicForm, k: MeddicKey, v: string): (g: MeddicForm)
    ensures Field(g, k) == v
    ensures forall k' :: k' != k ==> Field(g, k') == Field(f, k')
  {
    match k
    case Metrics => f.(metrics := v)
    case EconomicBuyer => f.(economicBuyer := v)
    case DecisionCriteria => f.(decisionCriteria := v)
    case DecisionProcess => f.(decisionProcess := v)
    case IdentifyPain => f.(identifyPain := v)
    case Champion => f.(champion := v)
  }

  /** The bar: one segment per field in form order, lit when the field is
      non-empty. */
  function Segments(f: MeddicForm): (bar: seq<bool>)
    ensures |bar| == |FIELD_ORDER|
    ensures forall i :: 0 <= i < |bar| ==> (bar[i] <==> Field(f, FIELD_ORDER[i]) != "")
  {
    [f.metrics != "", f.economicBuyer != "", f.decisionCriteria != "",
     f.decisionProcess != "", f.identifyPain != "", f.champion != ""]
  }

  function CountTrue(bs: seq<bool>): nat {
    if |bs| == 0 then 0 else (if bs[0] then 1 else 0) + CountTrue(bs[1..])
  }

  function Indicator(s: string): nat {
    if s != "" then 1 else 0
  }

  /** `calculateScore`: one point per non-empty field. It lies in 0..6 and
      equals the number of lit bar segments. */
  function Score(f: MeddicForm): (n: nat)
    ensures n <= 6
    ensures n == CountTrue(Segments(f))
  {
    var bar := Segments(f);
    assert CountTrue(bar[5..]) == Indicator(f.champion) by { assert bar[5..][1..] == []; }
    assert CountTrue(bar[4..]) == Indicator(f.identifyPain) + CountTrue(bar[5..]) by { assert bar[4..][1..] == bar[5..]; }
    assert CountTrue(bar[3..]) == Indicator(f.decisionProcess) + CountTrue(bar[4..]) by { assert bar[3..][1..] == bar[4..]; }
    assert CountTrue(bar[2..]) == Indicator(f.decisionCriteria) + CountTrue(bar[3..]) by { assert bar[2..][1..] == bar[3..]; }
    assert CountTrue(bar[1..]) == Indicator(f.economicBuyer) + CountTrue(bar[2..]) by { assert bar[1..][1..] == bar[2..]; }
    Indicator(f.metrics) + Indicator(f.economicBuyer) + Indicator(f.decisionCriteria)
    + Indicator(f.decisionProcess) + Indicator(f.identifyPain) + Indicator(f.champion)
  }

  /** Only which fields are filled matters, not their text. */
  lemma ScoreDependsOnlyOnFilled(f: MeddicForm, g: MeddicForm)
    requires forall k :: (Field(f, k) == "") == (Field(g, k) == "")
    ensures Score(f) == Score(g)
  {
    assert Field(f, Metrics) == "" <==> Field(g, Metrics) == "";
    assert Field(f, EconomicBuyer) == "" <==> Field(g, EconomicBuyer) == "";
    assert Field(f, DecisionCriteria) == "" <==> Field(g, DecisionCriteria) == "";
    assert Field(f, DecisionProcess) == "" <==> Field(g, DecisionProcess) == "";
    assert Field(f, IdentifyPain) == "" <==> Field(g, IdentifyPain) == "";
    assert Field(f, Champion) == "" <==> Field(g, Champion) == "";
  }

  /** Editing one field moves the score by at most one. */
  lemma EditMovesScoreByAtMostOne(f: MeddicForm, k: MeddicKey, v: string)
    ensures -1 <= Score(SetField(f, k, v)) - Score(f) <= 1
  {
  }

  /** Filling an empty field adds exactly one point; clearing a filled one
      removes exactly one. */
  lemma EditScoreStep(f: MeddicForm, k: MeddicKey, v: string)
    ensures Field(f, k) == "" && v != "" ==> Score(SetField(f, k, v)) == Score(f) + 1
    ensures Field(f, k) != "" && v == "" ==> Score(SetField(f, k, v)) == Score(f) - 1
    ensures (Field(f, k) == "") == (v == "") ==> Score(SetField(f, k, v)) == Score(f)
  {
  }

  datatype ScoreBand = Weak | Partial | Strong

  /** `<= 2` red, `<= 4` yellow, otherwise green. */
  function ScoreBandOf(score: nat): (b: ScoreBand)
    ensures b == Weak <==> score <= 2
    ensures b == Partial <==> 3 <= score <= 4
    ensures b == Strong <==> score >= 5
  {
    if score <= 2 then Weak else if score <= 4 then Partial else Strong
  }

  /** The score badge's text colour. */
  function ScoreColor(score: nat): string {
    if score <= 2 then "text-red-600" else if score <= 4 then "text-yellow-600" else "text-green-600"
  }

  /** The score badge's background. */
  function ScoreBg(score: nat): string {
    if score <= 2 then "bg-red-100" else if score <= 4 then "bg-yellow-100" else "bg-green-100"
  }

  function BandHue(b: ScoreBand): string {
    match b
    case Weak => "red"
    case Partial => "yellow"
    case Strong => "green"
  }

  /** The badge's text and background always share one hue. */
  lemma BadgeColoursAgree(score: nat)
    ensures ScoreColor(score) == "text-" + BandHue(ScoreBandOf(score)) + "-600"
    ensures ScoreBg(score) == "bg-" + BandHue(ScoreBandOf(score)) + "-100"
  {
  }
}

=== FILE: middleware.dfy ===
/** The page-routing guard: the `authorized` callback and the role-based
    redirect decision, from the session token and the request path. */
module Middleware {
  import opened Wrappers
  import opened Records
  import opened Text

  /** The part of the session token the guard reads. */
  datatype Token = Token(role: Role)

  /** Let the request through, or redirect it. */
  datatype Decision = Next | Redirect(location: string)

  const CLIENT_PORTAL := "/client-portal"
  const HOME := "/"
  /** next-auth's default sign-in route. The middleware passes `withAuth` no
      `pages` option, so this is where it sends a request without a token;
      that route then forwards the browser to the app's own `/login` page. */
  const SIGN_IN := "/api/auth/signin"

  /** `authorized: ({ token }) => !!token`. */
  predicate Authorized(token: Option<Token>) {
    token.Some?
  }

  /** The redirect decision for a signed-in request, as the source writes it. */
  function Route(role: Role, pathname: string): (r: Decision)
    ensures role == Client ==>
      r == if pathname == "/" || pathname == "/deals" || StartsWith(pathname, "/deals/")
           then Redirect(CLIENT_PORTAL) else Next
    ensures role == SalesRep ==>
      r == if StartsWith(pathname, CLIENT_PORTAL) then Redirect(HOME) else Next
  {
    if role == Client && (StartsWith(pathname, "/deals/new") || (StartsWith(pathname, "/deals/") && pathname != "/deals")) then
      Redirect(CLIENT_PORTAL)
    else if role == Client && (pathname == "/" || pathname == "/deals") then
      Redirect(CLIENT_PORTAL)
    else if role == SalesRep && StartsWith(pathname, CLIENT_PORTAL) then
      Redirect(HOME)
    else
      Next
  }

  /** The guard as a whole: an unauthorized request goes to the sign-in route
      and never reaches the redirect decision. */
  function Guard(token: Option<Token>, pathname: string): (r: Decision)
    ensures !Authorized(token) ==> r == Redirect(SIGN_IN)
    ensures Authorized(token) ==> r == Route(token.value.role, pathname)
  {
    if !Authorized(token) then Redirect(SIGN_IN) else Route(token.value.role, pathname)
  }

  /** Every path under "/deals/new" is under "/deals/", so the "/deals/new"
      test changes no outcome. */
  lemma DealsNewSubsumed(pathname: string)
    ensures StartsWith(pathname, "/deals/new") ==> StartsWith(pathname, "/deals/")
  {
    if StartsWith(pathname, "/deals/new") {
      assert pathname[..7] == pathname[..10][..7];
    }
  }

  /** Neither role is ever sent to the other role's landing page. */
  lemma NoCrossRedirect(role: Role, pathname: string)
    ensures role == Client ==> Route(role, pathname) != Redirect(HOME)
    ensures role == SalesRep ==> Route(role, pathname) != Redirect(CLIENT_PORTAL)
  {
  }

  /** A client browsing its own portal, at any depth, is let through. */
  lemma ClientPortalPasses(pathname: string)
    requires StartsWith(pathname, CLIENT_PORTAL)
    ensures Route(Client, pathname) == Next
  {
    assert pathname[..|CLIENT_PORTAL|][1] == 'c';
    assert |pathname| >= 7 ==> pathname[..7][1] == 'c';
  }
}

=== FILE: ordering.dfy ===
/** Ordering by a timestamp key, descending: the model of an
    `orderBy: { <key>: "desc" }` clause. The database leaves the order of
    equal keys unspecified; every contract below speaks only of sortedness
    and of the multiset of elements, never of how ties are broken. */
module Ordering {

  predicate SortedDesc<T>(s: seq<T>, key: T -> int) {
    forall i, j :: 0 <= i < j < |s| ==> key(s[i]) >= key(s[j])
  }

  /** Inserts `x` at its place in a newest-first sequence. The head of the
      result is `x` or the old head. */
  function Insert<T>(x: T, s: seq<T>, key: T -> int): (r: seq<T>)
    requires SortedDesc(s, key)
    ensures SortedDesc(r, key)
    ensures multiset(r) == multiset(s) + multiset{x}
    ensures |r| == |s| + 1
    ensures r[0] == x || (|s| > 0 && r[0] == s[0])
  {
    if |s| == 0 then [x]
    else if key(x) >= key(s[0]) then [x] + s
    else
      var rest := Insert(x, s[1..], key);
      assert key(s[0]) >= key(rest[0]);
      assert s == [s[0]] + s[1..];
      [s[0]] + rest
  }

  /** Insertion sort, newest first. */
  function SortDesc<T>(s: seq<T>, key: T -> int): (r: seq<T>)
    ensures SortedDesc(r, key)
    ensures multiset(r) == multiset(s)
    ensures |r| == |s|
  {
    if |s| == 0 then []
    else
      assert s == [s[0]] + s[1..];
      Insert(s[0], SortDesc(s[1..], key), key)
  }

  /** The first `n` elements, or all of them when there are fewer
      (`take: n`). */
  function Take<T>(s: seq<T>, n: nat): (r: seq<T>)
    ensures |r| == if |s| <= n then |s| else n
    ensures r == s[..|r|]
  {
    if |s| <= n then s else s[..n]
  }

  /** A prefix holds no element more often than the whole sequence. */
  lemma TakeSubBag<T>(s: seq<T>, n: nat)
    ensures multiset(Take(s, n)) <= multiset(s)
  {
    var r := Take(s, n);
    assert s == r + s[|r|..];
  }

  lemma SortedTake<T>(s: seq<T>, key: T -> int, n: nat)
    requires SortedDesc(s, key)
    ensures SortedDesc(Take(s, n), key)
  {
  }

  /** In a sorted sequence, every position a prefix leaves out holds a key
      no greater than any the prefix keeps. */
  lemma PrefixDominates<T>(s: seq<T>, key: T -> int, n: nat, i: int, j: int)
    requires SortedDesc(s, key)
    requires 0 <= i < |Take(s, n)| <= j < |s|
    ensures key(s[j]) <= key(Take(s, n)[i])
  {
    assert Take(s, n)[i] == s[i];
  }
}

=== FILE: query.dfy ===
/** The database as in-memory tables. A `where` clause is a first-order
    value (one optional condition per column) so that two call sites that
    build the same clause provably run the same query. */
module Query {
  import opened Wrappers
  import opened Records
  import opened Ordering

  /** The conditions of a Prisma `where` on deals; `None` means the column is
      not constrained. */
  datatype DealWhere = DealWhere(
    id: Option<string>,
    salesRepId: Option<string>,
    clientCompanyName: Option<string>,
    stageIn: Option<set<string>>,
    updatedAtGte: Option<int>)

  predicate Matches(w: DealWhere, d: Deal) {
    && (w.id.None? || d.id == w.id.value)
    && (w.salesRepId.None? || d.salesRepId == w.salesRepId.value)
    && (w.clientCompanyName.None? || d.clientCompanyName == w.clientCompanyName.value)
    && (w.stageIn.None? || d.stage in w.stageIn.value)
    && (w.updatedAtGte.None? || d.updatedAt >= w.updatedAtGte.value)
  }

  /** The rows matching `w`, in table order, each kept as often as it occurs. */
  function Filter(db: seq<Deal>, w: DealWhere): (r: seq<Deal>)
    ensures forall d :: d in r <==> d in db && Matches(w, d)
    ensures |r| <= |db|
  {
    if |db| == 0 then []
    else
      var rest := Filter(db[1..], w);
      assert forall d :: d in db <==> d == db[0] || d in db[1..] by {
        assert db == [db[0]] + db[1..];
      }
      if Matches(w, db[0]) then [db[0]] + rest else rest
  }

  /** The filter keeps every matching row as often as it occurs and drops
      every other one. */
  lemma {:induction false} FilterCounts(db: seq<Deal>, w: DealWhere)
    ensures forall d :: multiset(Filter(db, w))[d] == (if Matches(w, d) then multiset(db)[d] else 0)
    decreases |db|
  {
    if |db| > 0 {
      FilterCounts(db[1..], w);
      assert db == [db[0]] + db[1..];
    }
  }

  /** `findMany({ where: w, orderBy: { updatedAt: "desc" } })`. */
  function FindMany(db: seq<Deal>, w: DealWhere): (r: seq<Deal>)
    ensures SortedDesc(r, UpdatedAt)
    ensures forall d :: multiset(r)[d] == (if Matches(w, d) then multiset(db)[d] else 0)
    ensures forall d :: d in r <==> d in db && Matches(w, d)
    ensures |r| == |Filter(db, w)|
  {
    var r := SortDesc(Filter(db, w), UpdatedAt);
    FilterCounts(db, w);
    assert forall d :: d in Filter(db, w) <==> d in multiset(Filter(db, w));
    assert forall d :: d in r <==> d in multiset(r);
    r
  }

  /** The rows `findMany` returns are, as a bag, the filtered table. */
  lemma FindManyBag(db: seq<Deal>, w: DealWhere)
    ensures multiset(FindMany(db, w)) == multiset(Filter(db, w))
  {
    FilterCounts(db, w);
  }

  /** `findFirst({ where: w })` (and `findUnique` on the key column): the
      first matching row in table order. */
  function FindFirst(db: seq<Deal>, w: DealWhere): (r: Option<Deal>)
    ensures r.Some? <==> exists d :: d in db && Matches(w, d)
    ensures r.Some? ==> r.value in db && Matches(w, r.value)
  {
    if |db| == 0 then None
    else if Matches(w, db[0]) then Some(db[0])
    else
      assert db == [db[0]] + db[1..];
      FindFirst(db[1..], w)
  }

  /** The files of one deal, newest first
      (`files: { orderBy: { uploadedAt: "desc" } }`). */
  function FilesOf(files: seq<FileRecord>, dealId: string): (r: seq<FileRecord>)
    ensures SortedDesc(r, UploadedAt)
    ensures forall f :: f in r <==> f in files && f.dealId == dealId
    ensures forall f :: multiset(r)[f] == (if f.dealId == dealId then multiset(files)[f] else 0)
  {
    var owned := FilesWithDeal(files, dealId);
    var r := SortDesc(owned, UploadedAt);
    assert forall f :: f in r <==> f in multiset(r);
    assert forall f :: f in owned <==> f in multiset(owned);
    r
  }

  /** The deal's file rows in table order, each kept as often as it occurs. */
  function FilesWithDeal(files: seq<FileRecord>, dealId: string): (r: seq<FileRecord>)
    ensures forall f :: f in r <==> f in files && f.dealId == dealId
    ensures forall f :: multiset(r)[f] == (if f.dealId == dealId then multiset(files)[f] else 0)
  {
    if |files| == 0 then []
    else
      assert files == [files[0]] + files[1..];
      var rest := FilesWithDeal(files[1..], dealId);
      if files[0].dealId == dealId then [files[0]] + rest else rest
  }
}

=== FILE: quota.dfy ===
/** The quota attainment widget: percentage of the annual goal, the capped
    bar width, and the colour band shared by the bar and the figure. */
module Quota {

  /** `salesGoal > 0 ? ytdClosed / salesGoal * 100 : 0`. */
  function Percentage(ytdClosed: real, salesGoal: real): (p: real)
    ensures salesGoal > 0.0 ==> p * salesGoal == ytdClosed * 100.0
    ensures salesGoal <= 0.0 ==> p == 0.0
  {
    if salesGoal > 0.0 then ytdClosed / salesGoal * 100.0 else 0.0
  }

  /** The bar width, `Math.min(percentage, 100)`. */
  function Capped(p: real): (c: real)
    ensures c <= 100.0 && c <= p
    ensures c == p || c == 100.0
  {
    if p < 100.0 then p else 100.0
  }

  datatype QuotaBand = Behind | Halfway | OnTrack | Met

  /** The `>= 100`, `>= 75`, `>= 50` cascade. */
  function BandOf(p: real): (b: QuotaBand)
    ensures b == Met <==> p >= 100.0
    ensures b == OnTrack <==> 75.0 <= p < 100.0
    ensures b == Halfway <==> 50.0 <= p < 75.0
    ensures b == Behind <==> p < 50.0
  {
    if p >= 100.0 then Met else if p >= 75.0 then OnTrack else if p >= 50.0 then Halfway else Behind
  }

  function Rank(b: QuotaBand): nat {
    match b
    case Behind => 0
    case Halfway => 1
    case OnTrack => 2
    case Met => 3
  }

  function Hue(b: QuotaBand): string {
    match b
    case Met => "green"
    case OnTrack => "blue"
    case Halfway => "yellow"
    case Behind => "red"
  }

  /** The bar's colour class, as the widget writes it. */
  function BarClass(p: real): string {
    if p >= 100.0 then "bg-green-500"
    else if p >= 75.0 then "bg-blue-500"
    else if p >= 50.0 then "bg-yellow-500"
    else "bg-red-500"
  }

  /** The figure's colour class, as the widget writes it. */
  function TextClass(p: real): string {
    if p >= 100.0 then "text-green-600"
    else if p >= 75.0 then "text-blue-600"
    else if p >= 50.0 then "text-yellow-600"
    else "text-red-600"
  }

  /** The bar and the figure always show the same hue. */
  lemma BarAndTextAgree(p: real)
    ensures BarClass(p) == "bg-" + Hue(BandOf(p)) + "-500"
    ensures TextClass(p) == "text-" + Hue(BandOf(p)) + "-600"
  {
  }

  /** Both colours are chosen from the uncapped percentage, while the bar's
      width is capped; banding the capped width would give the same colour. */
  lemma CappingKeepsBand(p: real)
    ensures BandOf(Capped(p)) == BandOf(p)
  {
  }

  /** A higher percentage never lands in a lower band. */
  lemma BandMonotone(p1: real, p2: real)
    requires p1 <= p2
    ensures Rank(BandOf(p1)) <= Rank(BandOf(p2))
  {
  }

  /** With a positive goal, closing more never moves the widget to a lower
      band. */
  lemma MoreClosedNeverLowersBand(ytd1: real, ytd2: real, salesGoal: real)
    requires salesGoal > 0.0 && ytd1 <= ytd2
    ensures Rank(BandOf(Percentage(ytd1, salesGoal))) <= Rank(BandOf(Percentage(ytd2, salesGoal)))
  {
    var p1 := Percentage(ytd1, salesGoal);
    var p2 := Percentage(ytd2, salesGoal);
    assert (p2 - p1) * salesGoal == (ytd2 - ytd1) * 100.0;
    assert p1 <= p2;
    BandMonotone(p1, p2);
  }
}

=== FILE: records.dfy ===
/** The entities the access rules and the dashboard read, and the shape of
    an HTTP reply. Only the fields the modelled code reads or writes are
    kept. Times are milliseconds since the epoch; money is a real. */
module Records {
  import opened Wrappers

  /** The two roles a session can carry. */
  datatype Role = SalesRep | Client

  /** The resolved session user (`session.user`). */
  datatype User = User(id: string, role: Role, companyName: Option<string>, salesGoal: real)

  /** `getServerSession` yields a user or nothing. */
  type Session = Option<User>

  /** A deal row. `stage` is kept as the string the handlers pass through. */
  datatype Deal = Deal(
    id: string,
    salesRepId: string,
    dealName: string,
    clientCompanyName: string,
    dealValue: real,
    grossProfit: real,
    stage: string,
    updatedAt: int)

  /** A file row; the bytes live in blob storage under `filepath`. */
  datatype FileRecord = FileRecord(
    id: string,
    dealId: string,
    filename: string,
    filepath: string,
    category: string,
    uploadedAt: int)

  /** A JSON reply: a body with a success status, or an error message. */
  datatype Response<T> = Ok(status: int, value: T) | Error(status: int, message: string)

  /** The reply to a request without a session. */
  function Unauthorized<T>(): Response<T> {
    Error(401, "Unauthorized")
  }

  const COURTING := "COURTING"
  const QUOTED := "QUOTED"
  const WON := "WON"

  /** The stages a client may see. */
  const CLIENT_STAGES: set<string> := {QUOTED, WON}

  function UpdatedAt(d: Deal): int {
    d.updatedAt
  }

  function UploadedAt(f: FileRecord): int {
    f.uploadedAt
  }

  /** JavaScript truthiness of an optional string: present and non-empty. */
  predicate Truthy(s: Option<string>) {
    s.Some? && s.value != ""
  }
}

=== FILE: text.dfy ===
/** Strings as the user interface and the upload route build them: decimal
    rendering of counts (JavaScript template literals), prefix and suffix
    tests, and `String.prototype.replace` with a one-character pattern. */
module Text {
  import opened Wrappers

  predicate IsDigit(c: char) {
    '0' <= c <= '9'
  }

  predicate IsDigits(s: string) {
    forall i :: 0 <= i < |s| ==> IsDigit(s[i])
  }

  function DigitChar(d: nat): (c: char)
    requires d < 10
    ensures IsDigit(c) && c as int - '0' as int == d
  {
    ('0' as int + d) as char
  }

  function DigitValue(c: char): (d: nat)
    requires IsDigit(c)
    ensures d < 10 && DigitChar(d) == c
  {
    c as int - '0' as int
  }

  /** Decimal rendering of a non-negative integer, without leading zeros, as
      JavaScript prints an integral number below 10^21. */
  function NatToString(n: nat): (s: string)
    ensures 0 < |s| && IsDigits(s)
    ensures |s| > 1 ==> s[0] != '0'
    decreases n
  {
    if n < 10 then [DigitChar(n)] else NatToString(n / 10) + [DigitChar(n % 10)]
  }

  /** Reads a string of decimal digits back as a number. */
  function ParseNat(s: string): nat
    requires IsDigits(s)
    decreases |s|
  {
    if |s| == 0 then 0 else ParseNat(s[..|s| - 1]) * 10 + DigitValue(s[|s| - 1])
  }

  lemma {:induction false} ParseNatToString(n: nat)
    ensures ParseNat(NatToString(n)) == n
    decreases n
  {
    var s := NatToString(n);
    if n >= 10 {
      ParseNatToString(n / 10);
      assert s[..|s| - 1] == NatToString(n / 10);
    }
  }

  predicate StartsWith(s: string, prefix: string) {
    |prefix| <= |s| && s[..|prefix|] == prefix
  }

  predicate EndsWith(s: string, suffix: string) {
    |suffix| <= |s| && s[|s| - |suffix|..] == suffix
  }

  lemma EndsWithConcat(a: string, b: string)
    ensures EndsWith(a + b, b)
  {
    assert (a + b)[|a + b| - |b|..] == b;
  }

  /** The number in front of `suffix`, when `s` is a non-empty run of digits
      followed by `suffix`. */
  function ParseCount(s: string, suffix: string): (r: Option<nat>)
    ensures r.Some? ==> EndsWith(s, suffix)
  {
    if EndsWith(s, suffix) && |s| > |suffix| && IsDigits(s[..|s| - |suffix|])
    then Some(ParseNat(s[..|s| - |suffix|]))
    else None
  }

  lemma ParseCountOfRendering(n: nat, suffix: string)
    ensures ParseCount(NatToString(n) + suffix, suffix) == Some(n)
  {
    var s := NatToString(n) + suffix;
    EndsWithConcat(NatToString(n), suffix);
    assert s[..|s| - |suffix|] == NatToString(n);
    ParseNatToString(n);
  }

  /** `s.replace(a, b)` for one-character strings `a` and `b`: only the first
      occurrence of `a` is replaced. */
  function ReplaceFirst(s: string, a: char, b: char): (r: string)
    ensures |r| == |s|
    ensures forall i :: 0 <= i < |s| ==>
      r[i] == (if s[i] == a && a !in s[..i] then b else s[i])
  {
    if |s| == 0 then s
    else if s[0] == a then
      assert forall i :: 0 < i < |s| ==> s[..i][0] == a;
      [b] + s[1..]
    else
      var rest := ReplaceFirst(s[1..], a, b);
      assert forall i :: 0 < i < |s| ==> s[..i] == [s[0]] + s[1..][..i - 1];
      [s[0]] + rest
  }
}

=== FILE: upload_route.dfy ===
/** `POST /api/files/upload`: the gate in front of a file upload and the file
    record it creates. Blob storage is a map from stored path to bytes; the
    clock reading and the new record id are parameters. */
module UploadRoute {
  import opened Wrappers
  import opened Records
  import opened Query
  import opened Text
  import Data

  /** A multipart file part: the browser-supplied name and the content. */
  datatype UploadedFile = UploadedFile(name: string, bytes: seq<bv8>)

  /** The form fields the handler reads; a missing field is `None`. */
  datatype UploadForm = UploadForm(file: Option<UploadedFile>, dealId: Option<string>, category: Option<string>)

  /** Everything an upload can change: the deal and file tables and the
      blob store. */
  datatype Store = Store(deals: seq<Deal>, files: seq<FileRecord>, blobs: map<string, seq<bv8>>)

  const DEFAULT_CATEGORY := "INTERNAL"

  /** `findUnique({ where: { id } })`. */
  function DealById(deals: seq<Deal>, id: string): (r: Option<Deal>)
    ensures r.Some? <==> exists d :: d in deals && d.id == id
    ensures r.Some? ==> r.value in deals && r.value.id == id
  {
    FindFirst(deals, DealWhere(Some(id), None, None, None, None))
  }

  /** Where the content is stored: one directory per deal, the original name
      prefixed with the upload time. */
  function StoredPath(dealId: string, timestamp: nat, name: string): string {
    "uploads/" + dealId + "/" + NatToString(timestamp) + "-" + name
  }

  /** The stored path reads back as its parts: the deal's directory, then the
      decimal timestamp, a dash and the original name. */
  lemma StoredPathLayout(dealId: string, timestamp: nat, name: string)
    ensures var p := StoredPath(dealId, timestamp, name);
      var dir := "uploads/" + dealId + "/";
      && StartsWith(p, dir)
      && EndsWith(p, "-" + name)
      && ParseCount(p[|dir|..|p| - |name|], "-") == Some(timestamp)
  {
    var p := StoredPath(dealId, timestamp, name);
    var dir := "uploads/" + dealId + "/";
    var stamp := NatToString(timestamp);
    assert p == dir + (stamp + "-") + name;
    assert p[..|dir|] == dir;
    EndsWithConcat(dir + stamp, "-" + name);
    assert p == (dir + stamp) + ("-" + name);
    assert p[|dir|..|p| - |name|] == stamp + "-";
    ParseCountOfRendering(timestamp, "-");
  }

  /** The request is complete and names a deal the caller owns. */
  predicate MayUpload(store: Store, session: Session, form: UploadForm) {
    && session.Some? && session.value.role == SalesRep
    && form.file.Some? && Truthy(form.dealId)
    && (exists d :: d in store.deals && d.id == form.dealId.value)
    && DealById(store.deals, form.dealId.value).value.salesRepId == session.value.id
  }

  function Upload(store: Store, session: Session, form: UploadForm, timestamp: nat, newId: string): (r: (Response<FileRecord>, Store))
    ensures r.0.status == 201 <==> MayUpload(store, session, form)
    ensures r.0.status == 401 <==> session.None?
    ensures r.0.status == 400 <==>
      session.Some? && session.value.role == SalesRep && (form.file.None? || !Truthy(form.dealId))
    ensures r.0.status == 404 <==>
      && session.Some? && session.value.role == SalesRep && form.file.Some? && Truthy(form.dealId)
      && !exists d :: d in store.deals && d.id == form.dealId.value
    ensures r.0.status == 403 <==>
      && session.Some?
      && (|| session.value.role != SalesRep
          || (&& form.file.Some? && Truthy(form.dealId)
              && (exists d :: d in store.deals && d.id == form.dealId.value)
              && DealById(store.deals, form.dealId.value).value.salesRepId != session.value.id))
    ensures r.0.status in {201, 400, 401, 403, 404}
    ensures r.0.status != 201 ==> r.0.Error? && r.1 == store
    ensures r.0.status == 201 ==>
      (r.0.Ok? && form.file.Some? && form.dealId.Some? &&
      var rec := r.0.value;
      && rec.id == newId
      && rec.dealId == form.dealId.value
      && rec.filename == form.file.value.name
      && rec.filepath == StoredPath(form.dealId.value, timestamp, form.file.value.name)
      && rec.category == (if Truthy(form.category) then form.category.value else DEFAULT_CATEGORY)
      && rec.uploadedAt == timestamp
      && r.1 == Store(store.deals, store.files + [rec], store.blobs[rec.filepath := form.file.value.bytes]))
  {
    if session.None? then (Unauthorized(), store)
    else if session.value.role != SalesRep then (Error(403, "Only sales reps can upload files"), store)
    else if form.file.None? || !Truthy(form.dealId) then (Error(400, "File and dealId are required"), store)
    else
      var dealId := form.dealId.value;
      match DealById(store.deals, dealId)
      case None => (Error(404, "Deal not found"), store)
      case Some(deal) =>
        if deal.salesRepId != session.value.id then (Error(403, "Unauthorized"), store)
        else
          var file := form.file.value;
          var path := StoredPath(dealId, timestamp, file.name);
          var rec := FileRecord(
            newId, dealId, file.name, path,
            if Truthy(form.category) then form.category.value else DEFAULT_CATEGORY,
            timestamp);
          (Ok(201, rec), Store(store.deals, store.files + [rec], store.blobs[path := file.bytes]))
  }

  /** Existence is checked before ownership: a missing deal id gives 404 while
      another rep's deal gives 403. */
  lemma MissingAndForeignDiffer(store: Store, rep: User, form: UploadForm, timestamp: nat, newId: string)
    requires rep.role == SalesRep && form.file.Some? && Truthy(form.dealId)
    ensures (forall d :: d in store.deals ==> d.id != form.dealId.value)
            ==> Upload(store, Some(rep), form, timestamp, newId).0 == Error(404, "Deal not found")
    ensures (forall d :: d in store.deals && d.id == form.dealId.value ==> d.salesRepId != rep.id)
            && (exists d :: d in store.deals && d.id == form.dealId.value)
            ==> Upload(store, Some(rep), form, timestamp, newId).0 == Error(403, "Unauthorized")
  {
  }

  /** After a successful upload `getDealById` for the owner lists the new record,
      and its stored path holds the uploaded bytes. */
  lemma UploadedFileListed(store: Store, rep: User, form: UploadForm, timestamp: nat, newId: string)
    requires MayUpload(store, Some(rep), form)
    ensures var (resp, store') := Upload(store, Some(rep), form, timestamp, newId);
      && resp.Ok?
      && var page := Data.GetDealById(store'.deals, store'.files, form.dealId.value, rep.id);
      && page.Some? && resp.value in page.value.files
      && store'.blobs[resp.value.filepath] == form.file.value.bytes
  {
    var (resp, store') := Upload(store, Some(rep), form, timestamp, newId);
    assert DealById(store.deals, form.dealId.value).value in store.deals;
    assert resp.value in store'.files;
  }
}

=== FILE: wrappers.dfy ===
/** Optional values: the model's stand-in for the source's `null` and
    `undefined`. */
module Wrappers {

  datatype Option<+T> = None | Some(value: T) {

    /** The encapsulated value, or `default` when absent (the `x || default`
        idiom of the source when `x` cannot be falsy otherwise). */
    function GetOr(default: T): T {
      match this
      case Some(v) => v
      case None => default
    }
  }
}
